=== FILE: README.md ===
# Event collections of ruma-events, in Dafny

This project models the event-classification engine of ruma-events, a Rust
crate of typed events for the Matrix protocol. The engine takes a parsed JSON
document, reads its `"type"` tag, and decides which variant of a collection
enum the document becomes. There are five collections:

- `all::Event`, `all::RoomEvent` and `all::StateEvent` are the inclusive ones.
- `only::Event` and `only::RoomEvent` are the exclusive ones.
- `only::StateEvent` is a re-export of `all::StateEvent`.

Each collection is a closed sum over some of the 22 known event kinds, plus
Invalid and Custom fallbacks at some of the three levels (basic, room, state):

- `all::Event` holds all 22 kinds and fallbacks at all three levels.
- `all::RoomEvent` holds the 18 room and state kinds, with fallbacks at the room and state levels.
- `all::StateEvent` holds the 12 state kinds, with fallbacks at the state level.
- `only::Event` holds the 4 basic kinds, with fallbacks at the basic level.
- `only::RoomEvent` holds the 6 room kinds, with fallbacks at the room level.

The model also covers two string-enum codecs, `MembershipState` and
`SessionDescriptionType`. It covers the field rules of the `m.room.member`
content and of the call `SessionDescription`.

Layout (one module per file):

- `wrappers.dfy` (`Wrappers`): `Option` and `Result`.
- `json.dfy` (`Json`): the parsed document, and `Get`/`Has`, the model of `Value::get`.
- `event_type.dfy` (`EventTypes`): the 22 kinds, `EventType` (a known kind or the
  open `Custom(String)` case, here `Unknown`), the tag names, and the level table `LevelOf`.
- `collections.dfy` (`Events`):
  - `Variant`, the shape every collection value shares: a typed event, an
    Invalid fallback at a level, or a Custom fallback at a level.
  - `Collection`, naming the five enums, and `Levels`, the levels each one holds.
  - `Codec`, the record of decoders and encoders the collections delegate to.
  - The steps every decoder shares.
  - `Classify`, a table-driven reference classifier.
  - Serialization and the `From` lifts.
- `all.dfy` (`All`), `only.dfy` (`Only`): the five decoders, written arm by arm as
  the source matches on the tag. Each is proved equal to `Classify` on its
  collection. The properties of each collection follow as lemmas.
- `fields.dfy` (`Fields`): how a derived serde struct reads required and `Option`
  fields, and how `skip_serializing_if = "Option::is_none"` leaves fields out.
- `member.dfy` (`Member`), `call.dfy` (`Call`): the payload codecs.

The concrete events are opaque values of a type parameter `V`. This covers the
per-kind events (`AnswerEvent`, `MemberEvent`, ...), the `Invalid*Event` and
`Custom*Event` types. Their decoders and encoders are fields of `Codec<V>`:

- `parseType` stands for `from_value::<EventType>`.
- `decodeKind` stands for the per-kind `from_value` calls.
- `decodeInvalid` and `decodeCustom` stand for the fallback decoders.
- `withError` stands for `with_error`.
- Three encoders stand for each wrapped type's own `Serialize`.

All lemmas hold for every such codec. Where a property needs something of the
decoders the model takes as parameters, that is a named hypothesis. Examples: `KindRoundTrips` for the
round trip, and the membership lemma's condition that the member decoder
accepts only a document whose "content" decodes.

Three behaviours of the code are worth stating on their own:

- The `"type"` value may fail to parse, and the code returns that error
  (src/collections/all.rs:244-247).
- A failed `m.room.member` decode is `InvalidState` in all three inclusive
  collections (src/collections/all.rs:331, 532, 679).
- What `StateEvent` accepts, `Event` and `RoomEvent` decode to the same value
  when the tag is known. For an unknown tag this needs the `CustomState`
  decoder to accept only documents that carry `state_key`. `StateEvent` routes
  every unknown tag to `CustomState` without looking at `state_key`
  (src/collections/all.rs:706-711), while `Event` routes on it
  (src/collections/all.rs:382-399). `All.StateSubsetOfEvent` proves the
  agreement under that condition. `All.StateSubsetNeedsStateKey` shows a codec
  whose `CustomState` decoder accepts a document without `state_key`, where the
  two collections differ.

## Model

| member | source | states |
|---|---|---|
| `EventTypes.TagNameInjective` | src/collections/all.rs:35-94 | distinct kinds carry distinct tag strings |
| `EventTypes.LevelByTagName` | src/collections/all.rs:249-381 | the fallback level of a kind, read off its tag: `m.call.*`, `m.room.message`, `m.room.redaction` are room; every other `m.room.*` is state; the rest are basic |
| `EventTypes.KindsOfLevel` | src/collections/only.rs:22-58 | the basic kinds are exactly presence, receipt, tag and typing; the room kinds are exactly the four calls, message and redaction |
| `Json.Get` | src/collections/all.rs:239-242 | `value.get(key)` is some exactly when the document is an object holding `key`, and then it is that field's value |
| `Events.ReadType` | src/collections/all.rs:239-247 | a missing `"type"` is `missing_field("type")`; a tag that parses is returned as parsed; a parse failure is a custom error carrying the parser's message; it succeeds exactly when "type" is present and parses |
| `Events.DecodeKnown` | src/collections/all.rs:216-235 | a successful kind decode is the same-named variant holding the decoded event; a failed one is the Invalid fallback of the given level carrying the kind decoder's message; if that fallback fails too, the result is a custom error with the fallback's message; it succeeds exactly when one of the two decoders does |
| `Events.DecodeCustom` | src/collections/all.rs:382-399 | succeeds exactly when the Custom decoder of the routed level does, as that level's Custom variant holding its value; otherwise a custom error carrying its message |
| `Events.Shape` | src/collections/all.rs:383-389 | the level an unknown tag is routed to by `Event`: state exactly when `state_key` is present; room exactly when it is absent and `event_id`, `room_id` and `sender` are all present; basic otherwise |
| `Events.ClassifyHolds` | src/collections/all.rs:35-177 | every decoded value belongs to its collection's variant set; `NotApplicable` arises exactly for a known tag whose level the collection does not hold |
| `Events.Lift` | src/collections/all.rs:722-730 | a `From` lift wraps the value itself, in the variant named after its type: a kind's event becomes that kind's typed variant, a Custom type its Custom variant, at the type's own level |
| `Events.Serialize` | src/collections/all.rs:179-212 | serializing a collection value is serializing the wrapped event with its own encoder; the union adds no tag or wrapper |
| `Events.LiftSerializes` | src/collections/all.rs:179-212 | serializing a lifted value equals serializing the wrapped value |
| `All.DecodeEvent` | src/collections/all.rs:214-403 | `Event`'s decoder equals the reference classifier for the collection holding all three levels |
| `All.DecodeRoomEvent` | src/collections/all.rs:434-589 | `RoomEvent`'s decoder equals the reference classifier for room and state levels |
| `All.DecodeStateEvent` | src/collections/all.rs:612-720 | `StateEvent`'s decoder equals the reference classifier for the state level |
| `All.MissingTypeIsFatal` | src/collections/all.rs:452-455 | without `"type"` all three decoders return `missing_field("type")` |
| `All.BadTypeIsFatal` | src/collections/all.rs:623-631 | an unparseable tag is the error of all three decoders |
| `All.KnownTagDecoded` | src/collections/all.rs:249-381 | a known, held tag whose kind decode succeeds becomes the same-named variant |
| `All.KnownTagRecovered` | src/collections/all.rs:223-235 | a failed kind decode falls back once to the Invalid of the kind's level with the error attached, or returns the fallback's error |
| `All.EventFallbackLevel` | src/collections/all.rs:250-381 | the fallback levels per kind: calls, message, redaction to `InvalidRoom`; presence, receipt, tag, typing to `Invalid`; other `m.room.*` to `InvalidState` |
| `All.Rejections` | src/collections/all.rs:584-717 | `RoomEvent` rejects exactly the four basic kinds with "not a room event"; `StateEvent` rejects exactly the ten non-state kinds with "not a state event"; `Event` rejects none |
| `All.EventRoutesUnknown` | src/collections/all.rs:382-399 | `Event` routes an unknown tag to `CustomState` on `state_key`, else to `CustomRoom` on `event_id`+`room_id`+`sender`, else to `Custom`; a Custom decode failure is the error |
| `All.StateKeyBeatsRoomFields` | src/collections/all.rs:383-393 | with both `state_key` and the room fields, an unknown tag is `CustomState`, never `CustomRoom` |
| `All.RoomEventRoutesUnknown` | src/collections/all.rs:571-583 | `RoomEvent` makes an unknown tag `CustomState` with `state_key`, else `CustomRoom`, never a basic `Custom` |
| `All.StateEventRoutesUnknown` | src/collections/all.rs:706-711 | `StateEvent` makes every unknown tag `CustomState` |
| `All.KnownTagsAgree` | src/collections/all.rs:633-705 | for a known state tag the three decoders agree (same-named variant, `InvalidState`, or the same error); for a known room tag `Event` and `RoomEvent` agree |
| `All.StateSubsetOfEvent` | src/collections/all.rs:462-570 | what `StateEvent` accepts, `RoomEvent` and `Event` decode identically, when the tag is known or the `CustomState` decoder accepts only documents carrying `state_key` |
| `All.StateSubsetNeedsStateKey` | src/collections/all.rs:706-711 | when the `CustomState` decoder accepts a document without `state_key`, an unknown tag is `CustomState` for `StateEvent` but `Custom` for `Event` |
| `All.From` | src/collections/all.rs:732-811 | each inclusive `From` lift lands in its collection and serializes as the wrapped value |
| `All.FromTableByLevel` | src/collections/all.rs:758-811 | a type lifts into an inclusive collection exactly when that collection's decoder holds its level |
| `All.FromTablesNested` | src/collections/all.rs:789-811 | the liftable types are nested: `StateEvent` within `RoomEvent` within `Event` |
| `All.LiftRoundTrip` | src/collections/all.rs:405-432 | a lifted known event, serialized, decodes back to the same variant in each inclusive collection, given the kind's own codec round-trips |
| `Only.DecodeEvent` | src/collections/only.rs:73-135 | `only::Event`'s decoder equals the reference classifier for the basic level |
| `Only.DecodeRoomEvent` | src/collections/only.rs:152-226 | `only::RoomEvent`'s decoder equals the reference classifier for the room level |
| `Only.DecodeStateEvent` | src/collections/only.rs:20 | `only::StateEvent` is the inclusive state decoder |
| `Only.TagErrors` | src/collections/only.rs:84-92 | both exclusive decoders return `missing_field("type")` without a tag and pass tag-parse errors on |
| `Only.EventAcceptsBasicKinds` | src/collections/only.rs:94-132 | `only::Event` accepts exactly presence, receipt, tag, typing, falling back to `Invalid`; it rejects every other known tag with "not exclusively a basic event" |
| `Only.RoomEventAcceptsRoomKinds` | src/collections/only.rs:173-223 | `only::RoomEvent` accepts exactly the calls, message and redaction, falling back to `InvalidRoom`; it rejects the rest with "not exclusively a room event" |
| `Only.UnknownTags` | src/collections/only.rs:210-215 | unknown tags are always `Custom` in `only::Event` and always `CustomRoom` in `only::RoomEvent`, with no structural routing |
| `Only.Partition` | src/collections/only.rs:20-58 | every known tag is accepted by exactly one of `only::Event`, `only::RoomEvent`, `StateEvent` |
| `Only.ExclusiveAgreesWithInclusive` | src/collections/only.rs:94-118 | an exclusive decoder agrees with the inclusive ones on every known tag it accepts |
| `Only.From` | src/collections/only.rs:227-259 | each exclusive `From` lift lands in its collection and serializes as the wrapped value |
| `Only.FromTableByLevel` | src/collections/only.rs:237-259 | a type lifts into an exclusive collection exactly when its decoder holds the type's level |
| `Only.FromTablesPartition` | src/collections/only.rs:237-259 | exclusive lift sets sit inside the inclusive ones, are pairwise disjoint with `StateEvent`'s, and together cover every kind; exclusive room = inclusive room minus state |
| `Only.LiftRoundTrip` | src/collections/only.rs:60-71 | a lifted known event round-trips through its exclusive collection, given the kind's codec does |
| `Fields.RequiredString` | src/room/member.rs:91-98 | a required string field reads exactly when present as a string |
| `Fields.OptionalString` | src/room/member.rs:33-39 | an `Option<String>` field is `None` exactly when absent or null, is `Some` of the string when present as a string, and fails exactly on any other value |
| `Fields.OptionalBool` | src/room/member.rs:41-44 | an `Option<bool>` field is `None` exactly when absent or null, is `Some` of the boolean when present as a boolean, and fails exactly on any other value |
| `Fields.PutOptional` | src/room/member.rs:51-52 | an optional field is written exactly when set; no other key changes |
| `Member.EncodeMembership` | src/room/member.rs:59-75 | every membership state is written as one of "ban", "invite", "join", "knock", "leave" |
| `Member.DecodeMembership` | src/room/member.rs:56-77 | exactly those five strings decode, each to the state written as it |
| `Member.MembershipRoundTrip` | src/room/member.rs:59-75 | decode(encode(m)) = m |
| `Member.MembershipEncodingInjective` | src/room/member.rs:59-75 | distinct states are written differently |
| `Member.EncodeSigned` | src/room/member.rs:102-113 | the signed block is written with exactly `mxid`, `signatures`, `token` |
| `Member.DecodeSigned` | src/room/member.rs:103-112 | a signed block decodes exactly when `mxid` and `token` are present as strings and `signatures` is present; each field is read from the key of its own name |
| `Member.EncodeThirdPartyInvite` | src/room/member.rs:89-98 | a third-party invite is written with exactly `display_name` and `signed` |
| `Member.DecodeThirdPartyInvite` | src/room/member.rs:90-97 | a third-party invite decodes exactly when `display_name` is present as a string and `signed` is present and decodes; `displayName` is the `display_name` string and `signed` the decoded block |
| `Member.EncodeContent` | src/room/member.rs:30-53 | `membership` is always written; each of `avatar_url`, `displayname`, `is_direct`, `third_party_invite` is written exactly when set; no other key is written |
| `Member.ReadMembership` | src/room/member.rs:46-47 | the `membership` field reads exactly when present as one of the five names, and reads as the state of that name |
| `Member.ReadThirdPartyInvite` | src/room/member.rs:49-52 | `third_party_invite` reads as `None` exactly when absent or null; otherwise it reads as the decoded invite, and fails exactly when the invite does not decode |
| `Member.DecodeContent` | src/room/member.rs:31-53 | the content decodes exactly when the document is an object whose `avatar_url`, `displayname`, `is_direct`, `membership` and `third_party_invite` fields all read; each field of the result is the value its key reads as |
| `Member.SignedRoundTrip` | src/room/member.rs:100-113 | the signed block round-trips |
| `Member.ThirdPartyInviteRoundTrip` | src/room/member.rs:89-98 | the third-party invite round-trips |
| `Member.ContentRoundTrip` | src/room/member.rs:32-53 | the member content round-trips, optional fields included |
| `Member.MembershipIsRequired` | src/room/member.rs:34-52 | a content without `membership` never decodes; one with only a valid `membership` decodes with every optional field `None` |
| `Member.NestedRequiredFields` | src/room/member.rs:93-112 | `ThirdPartyInvite` needs `display_name` and `signed`; `SignedContent` needs `mxid`, `signatures` and `token` |
| `Member.PutInviteRoomState` | src/room/member.rs:24-26 | `invite_room_state` is written exactly when present, as the list itself; every other key and its value is unchanged |
| `Member.ReadInviteRoomState` | src/room/member.rs:25-26 | an absent or null `invite_room_state` reads as `None`, a list as `Some` of its elements, and any other value fails |
| `Member.InviteRoomStateRoundTrip` | src/room/member.rs:23-27 | `invite_room_state` round-trips through the event object |
| `Member.MemberWithoutMembershipIsInvalidState` | src/collections/all.rs:328-333 | a member event whose "content" lacks `membership` fails its kind decode and becomes `InvalidState`, carrying that decode's error, identically in all three inclusive collections |
| `Call.EncodeSessionType` | src/call/mod.rs:24-28 | a session type is written as "answer" or "offer" |
| `Call.DecodeSessionType` | src/call/mod.rs:20-29 | only "answer" and "offer" decode, each to the type written as it |
| `Call.SessionTypeRoundTrip` | src/call/mod.rs:24-28 | decode(encode(t)) = t |
| `Call.EncodeSessionDescription` | src/call/mod.rs:12-17 | a session description is written with exactly the keys "type" and "sdp", its type under "type" |
| `Call.DecodeSessionDescription` | src/call/mod.rs:11-18 | a session description decodes exactly when it is an object whose "type" is "answer" or "offer" and whose "sdp" is a string, other keys ignored; its type is read from "type" and its `sdp` from "sdp" |
| `Call.SessionDescriptionRoundTrip` | src/call/mod.rs:10-18 | decode(encode(d)) = d |
| `Call.TypeKeyIsRenamed` | src/call/mod.rs:14-15 | without a "type" key a session description does not decode, whatever else it carries |

## Left out

- serde and serde_json themselves are not modelled. The crates' `Deserialize`/`Serialize` plumbing, `from_value` and the structural parse of bytes into `Value` are outside the model. Documents start as `Json` values, and every decoder or encoder the model takes as a parameter is a field of `Codec`.
- The per-kind payloads other than the member content are opaque. `InvalidEvent`, the `Custom*Event` types and the envelope fields produced by the `event!`/`state_event!` macros are opaque too. Their bodies are not part of this model, so only decode success or failure matters.
- `EventType`'s string parser and its `Display` are not modelled. The parser is the `parseType` parameter. The tag strings in `TagName` are those documented on the enum variants.
- `with_error` is the `withError` parameter. What an Invalid event re-emits on serialization is its own encoder's business.
- Error messages are a small datatype. Only the fixed rejection strings are modelled exactly. The text of serde's messages is approximated.
- User ids (`ruma_identifiers`) and `ruma_signatures::Signatures` are external crates. `mxid` is any string, `signatures` any present JSON value, and no validation is modelled.
- `src/stripped.rs` and `src/typing.rs` are plain data shapes. `StrippedState` appears only as the opaque element type of `invite_room_state`.
- JSON numbers are integers; floats never matter to the classification.
- Derived serde structs also accept a positional array form. Only the object form is modelled.
- `Member.MemberWithoutMembershipIsInvalidState`: the rest of the envelope the `state_event!` macro reads is not part of this model. The lemma places the content under the event's "content" key (src/room/member.rs:20) and assumes, as a hypothesis, that the member decoder accepts only a document whose "content" decodes.
- Member.ReadMembership: serde also reads a unit enum from the single-key map form (`{"join": null}`). Only the string form is modelled, so "exactly" in its contract is with respect to that form. The same applies to `Member.DecodeContent`.
- Call.DecodeSessionDescription: likewise reads `"type"` only in the string form; the single-key map form (`{"answer": null}`) that serde also accepts is not modelled.

=== FILE: all.dfy ===
/** The inclusive collections: `Event` (every kind), `RoomEvent` (room and state
    kinds) and `StateEvent` (state kinds), each with its decoder, written arm by
    arm as the source matches on the tag, and its `From` lifts. */
module All {
  import opened Wrappers
  import opened Json
  import opened EventTypes
  import opened Events

  /** `Deserialize for Event`. */
  function DecodeEvent<V>(c: Codec<V>, doc: Json): (r: Result<Variant<V>, Error>)
    ensures r == Classify(AllEvent, c, doc)
  {
    match ReadType(c, doc)
    case Failure(e) => Failure(e)
    case Success(Known(k)) => (
      match k
      case CallAnswer | CallCandidates | CallHangup | CallInvite => DecodeKnown(c, k, Room, doc)
      case Presence | Receipt => DecodeKnown(c, k, Basic, doc)
      case RoomAliases | RoomAvatar | RoomCanonicalAlias | RoomCreate | RoomGuestAccess
        | RoomHistoryVisibility | RoomJoinRules | RoomMember => DecodeKnown(c, k, State, doc)
      case RoomMessage => DecodeKnown(c, k, Room, doc)
      case RoomName | RoomPowerLevels => DecodeKnown(c, k, State, doc)
      case RoomRedaction => DecodeKnown(c, k, Room, doc)
      case RoomThirdPartyInvite | RoomTopic => DecodeKnown(c, k, State, doc)
      case Tag | Typing => DecodeKnown(c, k, Basic, doc)
    )
    case Success(Unknown(_)) =>
      if Has(doc, "state_key") then DecodeCustom(c, State, doc)
      else if Has(doc, "event_id") && Has(doc, "room_id") && Has(doc, "sender") then
        DecodeCustom(c, Room, doc)
      else DecodeCustom(c, Basic, doc)
  }

  /** `Deserialize for RoomEvent`. */
  function DecodeRoomEvent<V>(c: Codec<V>, doc: Json): (r: Result<Variant<V>, Error>)
    ensures r == Classify(AllRoomEvent, c, doc)
  {
    match ReadType(c, doc)
    case Failure(e) => Failure(e)
    case Success(Known(k)) => (
      match k
      case CallAnswer | CallCandidates | CallHangup | CallInvite => DecodeKnown(c, k, Room, doc)
      case RoomAliases | RoomAvatar | RoomCanonicalAlias | RoomCreate | RoomGuestAccess
        | RoomHistoryVisibility | RoomJoinRules | RoomMember => DecodeKnown(c, k, State, doc)
      case RoomMessage => DecodeKnown(c, k, Room, doc)
      case RoomName | RoomPowerLevels => DecodeKnown(c, k, State, doc)
      case RoomRedaction => DecodeKnown(c, k, Room, doc)
      case RoomThirdPartyInvite | RoomTopic => DecodeKnown(c, k, State, doc)
      case Presence | Receipt | Tag | Typing => Failure(NotApplicable("not a room event"))
    )
    case Success(Unknown(_)) =>
      if Has(doc, "state_key") then DecodeCustom(c, State, doc)
      else DecodeCustom(c, Room, doc)
  }

  /** `Deserialize for StateEvent`. */
  function DecodeStateEvent<V>(c: Codec<V>, doc: Json): (r: Result<Variant<V>, Error>)
    ensures r == Classify(AllStateEvent, c, doc)
  {
    match ReadType(c, doc)
    case Failure(e) => Failure(e)
    case Success(Known(k)) => (
      match k
      case RoomAliases | RoomAvatar | RoomCanonicalAlias | RoomCreate | RoomGuestAccess
        | RoomHistoryVisibility | RoomJoinRules | RoomMember | RoomName | RoomPowerLevels
        | RoomThirdPartyInvite | RoomTopic => DecodeKnown(c, k, State, doc)
      case CallAnswer | CallCandidates | CallHangup | CallInvite | Presence | Receipt
        | RoomMessage | RoomRedaction | Tag | Typing => Failure(NotApplicable("not a state event"))
    )
    case Success(Unknown(_)) => DecodeCustom(c, State, doc)
  }

  /** The decoder of each inclusive collection. */
  function Decoder<V>(u: Collection, c: Codec<V>, doc: Json): Result<Variant<V>, Error>
    requires u in {AllEvent, AllRoomEvent, AllStateEvent}
  {
    match u
    case AllEvent => DecodeEvent(c, doc)
    case AllRoomEvent => DecodeRoomEvent(c, doc)
    case AllStateEvent => DecodeStateEvent(c, doc)
  }

  // ---------------------------------------------------------------------------
  // Tag handling common to the three decoders.

  /** A document without "type" fails with `missing_field("type")` in all three
      decoders, before any kind is decoded. */
  lemma MissingTypeIsFatal<V>(c: Codec<V>, doc: Json)
    requires !Has(doc, "type")
    ensures DecodeEvent(c, doc) == Failure(MissingField("type"))
    ensures DecodeRoomEvent(c, doc) == Failure(MissingField("type"))
    ensures DecodeStateEvent(c, doc) == Failure(MissingField("type"))
  {
  }

  /** A "type" value that does not parse as an `EventType` is returned as the
      error, in all three decoders. */
  lemma BadTypeIsFatal<V>(c: Codec<V>, doc: Json, msg: string)
    requires Has(doc, "type") && c.parseType(Get(doc, "type").value) == Failure(msg)
    ensures DecodeEvent(c, doc) == Failure(Decode(msg))
    ensures DecodeRoomEvent(c, doc) == Failure(Decode(msg))
    ensures DecodeStateEvent(c, doc) == Failure(Decode(msg))
  {
  }

  // ---------------------------------------------------------------------------
  // Known tags.

  /** A known tag the collection holds, whose kind decode succeeds, becomes the
      same-named variant, never an Invalid or Custom one. */
  lemma KnownTagDecoded<V>(u: Collection, c: Codec<V>, doc: Json, k: Kind, v: V)
    requires u in {AllEvent, AllRoomEvent, AllStateEvent}
    requires ReadType(c, doc) == Success(Known(k)) && LevelOf(k) in Levels(u)
    requires c.decodeKind(k, doc) == Success(v)
    ensures Decoder(u, c, doc) == Success(Typed(k, v))
  {
  }

  /** A known tag whose kind decode fails falls back, once, to the Invalid
      variant of the kind's own level with the error attached; a failing
      fallback is returned as the error and nothing further is tried. */
  lemma KnownTagRecovered<V>(u: Collection, c: Codec<V>, doc: Json, k: Kind, msg: string)
    requires u in {AllEvent, AllRoomEvent, AllStateEvent}
    requires ReadType(c, doc) == Success(Known(k)) && LevelOf(k) in Levels(u)
    requires c.decodeKind(k, doc) == Failure(msg)
    ensures c.decodeInvalid(LevelOf(k), doc).Success? ==>
      Decoder(u, c, doc) == Success(Invalid(LevelOf(k), c.withError(c.decodeInvalid(LevelOf(k), doc).value, msg)))
    ensures c.decodeInvalid(LevelOf(k), doc).Failure? ==>
      Decoder(u, c, doc) == Failure(Decode(c.decodeInvalid(LevelOf(k), doc).error))
  {
  }

  /** The fallback level written out: calls, `m.room.message` and
      `m.room.redaction` go to `InvalidRoom`; presence, receipt, tag and typing
      to `Invalid`; every other `m.room.*` kind to `InvalidState`. */
  lemma EventFallbackLevel<V>(c: Codec<V>, doc: Json, k: Kind)
    requires ReadType(c, doc) == Success(Known(k))
    requires c.decodeKind(k, doc).Failure? && c.decodeInvalid(LevelOf(k), doc).Success?
    ensures DecodeEvent(c, doc).Success? && DecodeEvent(c, doc).value.Invalid?
    ensures k in {CallAnswer, CallCandidates, CallHangup, CallInvite, RoomMessage, RoomRedaction} ==>
      DecodeEvent(c, doc).value.level == Room
    ensures k in {Presence, Receipt, Tag, Typing} ==> DecodeEvent(c, doc).value.level == Basic
    ensures IsPrefix("m.room.", TagName(k)) && k !in {RoomMessage, RoomRedaction} ==>
      DecodeEvent(c, doc).value.level == State
  {
    LevelByTagName(k);
  }

  /** `RoomEvent` rejects the four basic kinds with "not a room event", and
      `StateEvent` the ten non-state kinds with "not a state event"; no other
      known tag is rejected. */
  lemma Rejections<V>(c: Codec<V>, doc: Json, k: Kind)
    requires ReadType(c, doc) == Success(Known(k))
    ensures DecodeEvent(c, doc).Failure? ==> DecodeEvent(c, doc).error.Decode?
    ensures DecodeRoomEvent(c, doc) == Failure(NotApplicable("not a room event")) <==>
      k in {Presence, Receipt, Tag, Typing}
    ensures DecodeStateEvent(c, doc) == Failure(NotApplicable("not a state event")) <==>
      k in {CallAnswer, CallCandidates, CallHangup, CallInvite, Presence, Receipt,
            RoomMessage, RoomRedaction, Tag, Typing}
  {
  }

  // ---------------------------------------------------------------------------
  // Unknown tags.

  /** `Event` routes an unknown tag by structure: `state_key` wins, then the
      three room fields together, else a basic custom event. A failing Custom
      decode is returned as the error. */
  lemma EventRoutesUnknown<V>(c: Codec<V>, doc: Json, name: string)
    requires ReadType(c, doc) == Success(Unknown(name))
    ensures Has(doc, "state_key") ==> DecodeEvent(c, doc) == DecodeCustom(c, State, doc)
    ensures !Has(doc, "state_key") && Has(doc, "event_id") && Has(doc, "room_id") && Has(doc, "sender") ==>
      DecodeEvent(c, doc) == DecodeCustom(c, Room, doc)
    ensures !Has(doc, "state_key") && !(Has(doc, "event_id") && Has(doc, "room_id") && Has(doc, "sender")) ==>
      DecodeEvent(c, doc) == DecodeCustom(c, Basic, doc)
    ensures c.decodeCustom(Route(AllEvent, doc), doc).Failure? ==>
      DecodeEvent(c, doc) == Failure(Decode(c.decodeCustom(Route(AllEvent, doc), doc).error))
  {
  }

  /** The tie-break: a document carrying `state_key` and all three room fields
      under an unknown tag is a `CustomState`, never a `CustomRoom`. */
  lemma StateKeyBeatsRoomFields<V>(c: Codec<V>, doc: Json, name: string)
    requires ReadType(c, doc) == Success(Unknown(name))
    requires Has(doc, "state_key") && Has(doc, "event_id") && Has(doc, "room_id") && Has(doc, "sender")
    ensures DecodeEvent(c, doc).Success? ==> DecodeEvent(c, doc).value.Custom? && DecodeEvent(c, doc).value.level == State
  {
  }

  /** `RoomEvent` never yields a basic custom event: an unknown tag is a
      `CustomState` with `state_key`, a `CustomRoom` without. */
  lemma RoomEventRoutesUnknown<V>(c: Codec<V>, doc: Json, name: string)
    requires ReadType(c, doc) == Success(Unknown(name))
    ensures DecodeRoomEvent(c, doc) == DecodeCustom(c, if Has(doc, "state_key") then State else Room, doc)
    ensures DecodeRoomEvent(c, doc).Success? ==> DecodeRoomEvent(c, doc).value.level != Basic
  {
  }

  /** `StateEvent` decodes every unknown tag as a `CustomState`. */
  lemma StateEventRoutesUnknown<V>(c: Codec<V>, doc: Json, name: string)
    requires ReadType(c, doc) == Success(Unknown(name))
    ensures DecodeStateEvent(c, doc) == DecodeCustom(c, State, doc)
  {
  }

  // ---------------------------------------------------------------------------
  // Agreement between the three levels.

  /** For a known state tag the three decoders agree: all the same-named
      variant, all `InvalidState`, or all the same error. For a known room tag
      `Event` and `RoomEvent` agree. */
  lemma KnownTagsAgree<V>(c: Codec<V>, doc: Json, k: Kind)
    requires ReadType(c, doc) == Success(Known(k))
    ensures LevelOf(k) == State ==>
      DecodeEvent(c, doc) == DecodeRoomEvent(c, doc) == DecodeStateEvent(c, doc)
    ensures LevelOf(k) == State && DecodeStateEvent(c, doc).Success? ==>
      DecodeStateEvent(c, doc).value == Typed(k, DecodeStateEvent(c, doc).value.event) ||
      DecodeStateEvent(c, doc).value == Invalid(State, DecodeStateEvent(c, doc).value.event)
    ensures LevelOf(k) == Room ==> DecodeEvent(c, doc) == DecodeRoomEvent(c, doc)
  {
  }

  /** What `StateEvent` accepts, `Event` and `RoomEvent` decode to the same value,
      provided the tag is known or the `CustomState` decoder only accepts
      documents carrying `state_key` (as a state event's required field makes
      it do). */
  lemma StateSubsetOfEvent<V>(c: Codec<V>, doc: Json)
    requires DecodeStateEvent(c, doc).Success?
    requires ReadType(c, doc).value.Known? || (c.decodeCustom(State, doc).Success? ==> Has(doc, "state_key"))
    ensures DecodeRoomEvent(c, doc) == DecodeStateEvent(c, doc)
    ensures DecodeEvent(c, doc) == DecodeStateEvent(c, doc)
  {
  }

  /** Without the proviso the subset does not hold: when the `CustomState`
      decoder accepts a document without `state_key`, `StateEvent` takes an
      unknown tag as a `CustomState` where `Event` makes it a basic `Custom`. */
  lemma StateSubsetNeedsStateKey()
    ensures var c: Codec<int> := Codec(
              _ => Success(Unknown("x.custom")),
              (_, _) => Failure("unused"),
              (_, _) => Failure("unused"),
              (l, _) => Success(0),
              (v, _) => v,
              (_, _) => JNull, (_, _) => JNull, (_, _) => JNull);
            var doc := JObject(map["type" := JString("x.custom")]);
            DecodeStateEvent(c, doc) == Success(Custom(State, 0)) &&
            DecodeEvent(c, doc) == Success(Custom(Basic, 0))
  {
  }

  // ---------------------------------------------------------------------------
  // Lifting.

  /** The types with a `From` lift into `Event`: every kind and all three
      Custom types. */
  const EventFrom: set<Liftable> := {
    OfKind(CallAnswer), OfKind(CallCandidates), OfKind(CallHangup), OfKind(CallInvite),
    OfKind(Presence), OfKind(Receipt), OfKind(RoomAliases), OfKind(RoomAvatar),
    OfKind(RoomCanonicalAlias), OfKind(RoomCreate), OfKind(RoomGuestAccess),
    OfKind(RoomHistoryVisibility), OfKind(RoomJoinRules), OfKind(RoomMember),
    OfKind(RoomMessage), OfKind(RoomName), OfKind(RoomPowerLevels), OfKind(RoomRedaction),
    OfKind(RoomThirdPartyInvite), OfKind(RoomTopic), OfKind(Tag), OfKind(Typing),
    OfCustom(Basic), OfCustom(Room), OfCustom(State)}

  /** The types with a `From` lift into `RoomEvent`. */
  const RoomEventFrom: set<Liftable> := {
    OfKind(CallAnswer), OfKind(CallCandidates), OfKind(CallHangup), OfKind(CallInvite),
    OfKind(RoomAliases), OfKind(RoomAvatar), OfKind(RoomCanonicalAlias), OfKind(RoomCreate),
    OfKind(RoomGuestAccess), OfKind(RoomHistoryVisibility), OfKind(RoomJoinRules),
    OfKind(RoomMember), OfKind(RoomMessage), OfKind(RoomName), OfKind(RoomPowerLevels),
    OfKind(RoomRedaction), OfKind(RoomThirdPartyInvite), OfKind(RoomTopic),
    OfCustom(Room), OfCustom(State)}

  /** The types with a `From` lift into `StateEvent`. */
  const StateEventFrom: set<Liftable> := {
    OfKind(RoomAliases), OfKind(RoomAvatar), OfKind(RoomCanonicalAlias), OfKind(RoomCreate),
    OfKind(RoomGuestAccess), OfKind(RoomHistoryVisibility), OfKind(RoomJoinRules),
    OfKind(RoomMember), OfKind(RoomName), OfKind(RoomPowerLevels),
    OfKind(RoomThirdPartyInvite), OfKind(RoomTopic), OfCustom(State)}

  function FromTable(u: Collection): set<Liftable>
    requires u in {AllEvent, AllRoomEvent, AllStateEvent}
  {
    match u
    case AllEvent => EventFrom
    case AllRoomEvent => RoomEventFrom
    case AllStateEvent => StateEventFrom
  }

  /** `From<T> for Event` / `RoomEvent` / `StateEvent`: the lifted value belongs
      to the collection and serializes as the value itself. */
  function From<V>(u: Collection, c: Codec<V>, t: Liftable, v: V): (e: Variant<V>)
    requires u in {AllEvent, AllRoomEvent, AllStateEvent} && t in FromTable(u)
    ensures Holds(u, e) && e.event == v
    ensures Serialize(c, e) == Encode(c, t, v)
  {
    Lift(t, v)
  }

  /** A type lifts into an inclusive collection exactly when the collection's
      decoder holds its level: lifting and decoding agree on membership. */
  lemma FromTableByLevel(u: Collection, t: Liftable)
    requires u in {AllEvent, AllRoomEvent, AllStateEvent}
    ensures t in FromTable(u) <==> LiftableLevel(t) in Levels(u)
  {
  }

  /** The liftable types are nested: `StateEvent` within `RoomEvent` within
      `Event`. */
  lemma FromTablesNested()
    ensures StateEventFrom <= RoomEventFrom <= EventFrom
  {
  }

  /** The round trip through a collection: a lifted known event serializes to a
      document its collection decodes back to the same variant, provided the
      event's own codec round-trips. */
  lemma LiftRoundTrip<V>(u: Collection, c: Codec<V>, k: Kind, v: V)
    requires u in {AllEvent, AllRoomEvent, AllStateEvent} && OfKind(k) in FromTable(u)
    requires KindRoundTrips(c, k, v)
    ensures Decoder(u, c, Serialize(c, From(u, c, OfKind(k), v))) == Success(Typed(k, v))
  {
  }
}

=== FILE: call.dfy ===
/** The VoIP session description shared by the `m.call.*` events. */
module Call {
  import opened Wrappers
  import opened Json
  import opened Fields

  datatype SessionDescriptionType = Answer | Offer

  function EncodeSessionType(t: SessionDescriptionType): (s: string)
    ensures s in {"answer", "offer"}
  {
    match t
    case Answer => "answer"
    case Offer => "offer"
  }

  /** Only "answer" and "offer" decode, each to the type written as it. */
  function DecodeSessionType(s: string): (r: Option<SessionDescriptionType>)
    ensures r.Some? <==> s in {"answer", "offer"}
    ensures r.Some? ==> EncodeSessionType(r.value) == s
  {
    match s
    case "answer" => Some(Answer)
    case "offer" => Some(Offer)
    case _ => None
  }

  lemma SessionTypeRoundTrip(t: SessionDescriptionType)
    ensures DecodeSessionType(EncodeSessionType(t)) == Some(t)
  {
  }

  datatype SessionDescription = SessionDescription(sessionType: SessionDescriptionType, sdp: string)

  /** Serializes a session description; its type goes under "type", not
      "session_type". */
  function EncodeSessionDescription(d: SessionDescription): (r: Json)
    ensures r.JObject? && r.fields.Keys == {"type", "sdp"}
    ensures r.fields["type"] == JString(EncodeSessionType(d.sessionType))
  {
    JObject(map["type" := JString(EncodeSessionType(d.sessionType)), "sdp" := JString(d.sdp)])
  }

  /** Deserializes a session description; both "type" and "sdp" are required. */
  function DecodeSessionDescription(doc: Json): (r: Result<SessionDescription, string>)
    ensures r.Success? <==>
      && doc.JObject?
      && "type" in doc.fields && doc.fields["type"].JString?
      && DecodeSessionType(doc.fields["type"].s).Some?
      && "sdp" in doc.fields && doc.fields["sdp"].JString?
    ensures r.Success? ==> doc.fields["type"] == JString(EncodeSessionType(r.value.sessionType))
    ensures r.Success? ==> doc.fields["sdp"] == JString(r.value.sdp)
  {
    if !doc.JObject? then Failure("invalid type: expected struct SessionDescription")
    else if "type" !in doc.fields then Failure(MissingFieldMessage("type"))
    else match doc.fields["type"]
      case JString(s) => (
        match DecodeSessionType(s)
        case None => Failure("unknown variant `" + s + "`")
        case Some(t) =>
          match RequiredString(doc.fields, "sdp")
          case Success(sdp) => Success(SessionDescription(t, sdp))
          case Failure(e) => Failure(e))
      case _ => Failure(InvalidType("type"))
  }

  /** decode(encode(d)) = d. */
  lemma SessionDescriptionRoundTrip(d: SessionDescription)
    ensures DecodeSessionDescription(EncodeSessionDescription(d)) == Success(d)
  {
  }

  /** The type is read from "type" alone: a document carrying it only under
      "session_type" does not decode. */
  lemma TypeKeyIsRenamed(fields: map<string, Json>)
    requires "type" !in fields
    ensures DecodeSessionDescription(JObject(fields)).Failure?
  {
  }
}

=== FILE: collections.dfy ===
/** What the collection enums share: the shape of a union value, the decoders
    the dispatch consults, serialization by delegation, the `From` lifts, and a
    table-driven reference classifier that every union decoder is proved to
    agree with. */
module Events {
  import opened Wrappers
  import opened Json
  import opened EventTypes

  /** A value of one of the collection enums: which variant it is, and the event
      that variant wraps. The wrapped events (`AnswerEvent`, `InvalidRoomEvent`,
      `CustomStateEvent`, ...) are opaque values of type `V`. */
  datatype Variant<V> =
    | Typed(kind: Kind, event: V)       // CallAnswer(AnswerEvent) ... Typing(TypingEvent)
    | Invalid(level: Level, event: V)   // Invalid / InvalidRoom / InvalidState
    | Custom(level: Level, event: V)    // Custom / CustomRoom / CustomState

  /** The five collection enums: `all::Event`, `all::RoomEvent`, `all::StateEvent`
      (re-exported as `only::StateEvent`), `only::Event` and `only::RoomEvent`. */
  datatype Collection = AllEvent | AllRoomEvent | AllStateEvent | OnlyEvent | OnlyRoomEvent

  /** Deserialization errors. `MissingField` is serde's `missing_field`,
      `NotApplicable` the fixed message of a tag the union does not hold, and
      `Decode` every message passed on from a failed inner decode. */
  datatype Error = MissingField(field: string) | NotApplicable(msg: string) | Decode(msg: string)

  /** The decoders and encoders the collections delegate to. Each one comes
      from serde derives and the `event!` macros, outside this model, so each
      is a parameter:
      - `parseType`: `from_value::<EventType>` on the value under "type";
      - `decodeKind`: `from_value::<AnswerEvent>` and the other per-kind decoders;
      - `decodeInvalid`, `decodeCustom`: the Invalid and Custom fallbacks, per level;
      - `withError`: `InvalidEvent::with_error` (and its room/state twins);
      - the three encoders: each wrapped type's own `Serialize`. */
  datatype Codec<!V> = Codec(
    parseType: Json -> Result<EventType, string>,
    decodeKind: (Kind, Json) -> Result<V, string>,
    decodeInvalid: (Level, Json) -> Result<V, string>,
    decodeCustom: (Level, Json) -> Result<V, string>,
    withError: (V, string) -> V,
    encodeKind: (Kind, V) -> Json,
    encodeInvalid: (Level, V) -> Json,
    encodeCustom: (Level, V) -> Json)

  function VariantLevel<V>(e: Variant<V>): Level {
    match e
    case Typed(k, _) => LevelOf(k)
    case Invalid(l, _) => l
    case Custom(l, _) => l
  }

  /** The levels whose kinds and fallbacks a collection holds. */
  function Levels(u: Collection): set<Level> {
    match u
    case AllEvent => {Basic, Room, State}
    case AllRoomEvent => {Room, State}
    case AllStateEvent => {State}
    case OnlyEvent => {Basic}
    case OnlyRoomEvent => {Room}
  }

  /** `e` is a value of the enum `u`: the enum has a variant for it. */
  predicate Holds<V>(u: Collection, e: Variant<V>) {
    VariantLevel(e) in Levels(u)
  }

  /** The fixed message of a tag that `u` rejects. `all::Event` rejects no known
      tag, so its entry is never produced. */
  function Rejection(u: Collection): string {
    match u
    case AllEvent => ""
    case AllRoomEvent => "not a room event"
    case AllStateEvent => "not a state event"
    case OnlyEvent => "not exclusively a basic event"
    case OnlyRoomEvent => "not exclusively a room event"
  }

  // ---------------------------------------------------------------------------
  // The steps every union decoder shares.

  /** Reads the tag: a document without "type" is a `missing_field("type")`
      error, and a tag that does not parse passes its message on. */
  function ReadType<V>(c: Codec<V>, doc: Json): (r: Result<EventType, Error>)
    ensures Get(doc, "type").None? ==> r == Failure(MissingField("type"))
    ensures Get(doc, "type").Some? && c.parseType(Get(doc, "type").value).Success? ==>
      r == Success(c.parseType(Get(doc, "type").value).value)
    ensures Get(doc, "type").Some? && c.parseType(Get(doc, "type").value).Failure? ==>
      r == Failure(Decode(c.parseType(Get(doc, "type").value).error))
    ensures r.Success? <==> Get(doc, "type").Some? && c.parseType(Get(doc, "type").value).Success?
  {
    match Get(doc, "type")
    case None => Failure(MissingField("type"))
    case Some(tag) =>
      match c.parseType(tag)
      case Success(t) => Success(t)
      case Failure(msg) => Failure(Decode(msg))
  }

  /** A known tag: decode as the kind; on failure decode as the Invalid fallback
      of `level` carrying the first error, and if that fails too, return its
      error. */
  function DecodeKnown<V>(c: Codec<V>, k: Kind, level: Level, doc: Json): (r: Result<Variant<V>, Error>)
    ensures r.Success? ==> r.value.Typed? || r.value.Invalid?
    ensures c.decodeKind(k, doc).Success? ==> r == Success(Typed(k, c.decodeKind(k, doc).value))
    ensures c.decodeKind(k, doc).Failure? && c.decodeInvalid(level, doc).Success? ==>
      r == Success(Invalid(level, c.withError(c.decodeInvalid(level, doc).value, c.decodeKind(k, doc).error)))
    ensures c.decodeKind(k, doc).Failure? && c.decodeInvalid(level, doc).Failure? ==>
      r == Failure(Decode(c.decodeInvalid(level, doc).error))
    ensures r.Success? <==> c.decodeKind(k, doc).Success? || c.decodeInvalid(level, doc).Success?
  {
    match c.decodeKind(k, doc)
    case Success(v) => Success(Typed(k, v))
    case Failure(msg) =>
      match c.decodeInvalid(level, doc)
      case Success(iv) => Success(Invalid(level, c.withError(iv, msg)))
      case Failure(msg') => Failure(Decode(msg'))
  }

  /** An unknown tag, once routed to `level`: decode as that Custom fallback;
      its failure is returned as is. */
  function DecodeCustom<V>(c: Codec<V>, level: Level, doc: Json): (r: Result<Variant<V>, Error>)
    ensures r.Success? <==> c.decodeCustom(level, doc).Success?
    ensures r.Success? ==> r.value == Custom(level, c.decodeCustom(level, doc).value)
    ensures r.Failure? ==> r.error == Decode(c.decodeCustom(level, doc).error)
  {
    match c.decodeCustom(level, doc)
    case Success(v) => Success(Custom(level, v))
    case Failure(msg) => Failure(Decode(msg))
  }

  // ---------------------------------------------------------------------------
  // The reference classifier.

  /** The level a document's shape suggests: `state_key` first, then all of
      `event_id`, `room_id` and `sender`, else basic. */
  function Shape(doc: Json): (r: Level)
    ensures r == State <==> Has(doc, "state_key")
    ensures r == Room <==>
      !Has(doc, "state_key") && Has(doc, "event_id") && Has(doc, "room_id") && Has(doc, "sender")
    ensures r == Basic <==>
      !Has(doc, "state_key") && !(Has(doc, "event_id") && Has(doc, "room_id") && Has(doc, "sender"))
  {
    if Has(doc, "state_key") then State
    else if Has(doc, "event_id") && Has(doc, "room_id") && Has(doc, "sender") then Room
    else Basic
  }

  function Lowest(levels: set<Level>): Level {
    if Basic in levels then Basic else if Room in levels then Room else State
  }

  /** The Custom fallback an unknown tag lands in: the shape's level when the
      collection holds it, else the lowest level the collection holds. */
  function Route(u: Collection, doc: Json): Level {
    if Shape(doc) in Levels(u) then Shape(doc) else Lowest(Levels(u))
  }

  /** One decoder for every collection, driven by `LevelOf` and `Levels`: a known
      tag is held when its level is, and falls back at its own level; an unknown
      tag is routed by `Route`. */
  function Classify<V>(u: Collection, c: Codec<V>, doc: Json): Result<Variant<V>, Error> {
    match ReadType(c, doc)
    case Failure(e) => Failure(e)
    case Success(Unknown(_)) => DecodeCustom(c, Route(u, doc), doc)
    case Success(Known(k)) =>
      if LevelOf(k) in Levels(u) then DecodeKnown(c, k, LevelOf(k), doc)
      else Failure(NotApplicable(Rejection(u)))
  }

  /** Every result of the reference classifier belongs to the collection it
      decodes, and only a rejected known tag yields `NotApplicable`. */
  lemma ClassifyHolds<V>(u: Collection, c: Codec<V>, doc: Json)
    ensures Classify(u, c, doc).Success? ==> Holds(u, Classify(u, c, doc).value)
    ensures Classify(u, c, doc).Failure? && Classify(u, c, doc).error.NotApplicable? <==>
      ReadType(c, doc).Success? && ReadType(c, doc).value.Known? &&
      LevelOf(ReadType(c, doc).value.kind) !in Levels(u)
  {
  }

  // ---------------------------------------------------------------------------
  // Serialization and lifting.

  /** `Serialize` for every collection enum: serialize whichever event the
      variant wraps, with that event's own encoder. */
  function Serialize<V>(c: Codec<V>, e: Variant<V>): (r: Json)
    ensures e.Typed? ==> r == Encode(c, OfKind(e.kind), e.event)
    ensures e.Custom? ==> r == Encode(c, OfCustom(e.level), e.event)
    ensures e.Invalid? ==> r == c.encodeInvalid(e.level, e.event)
  {
    match e
    case Typed(k, v) => c.encodeKind(k, v)
    case Invalid(l, v) => c.encodeInvalid(l, v)
    case Custom(l, v) => c.encodeCustom(l, v)
  }

  /** The wrapped types that have a `From` lift into some collection: a per-kind
      event type, or one of the three Custom types. */
  datatype Liftable = OfKind(kind: Kind) | OfCustom(level: Level)

  function LiftableLevel(t: Liftable): Level {
    match t
    case OfKind(k) => LevelOf(k)
    case OfCustom(l) => l
  }

  /** The serialization of a value of a wrapped type. */
  function Encode<V>(c: Codec<V>, t: Liftable, v: V): Json {
    match t
    case OfKind(k) => c.encodeKind(k, v)
    case OfCustom(l) => c.encodeCustom(l, v)
  }

  /** `From<T>`: places `v` in the variant named after its type. */
  function Lift<V>(t: Liftable, v: V): (e: Variant<V>)
    ensures e.event == v
    ensures VariantLevel(e) == LiftableLevel(t)
    ensures t.OfKind? <==> e.Typed?
    ensures t.OfKind? ==> e.kind == t.kind
    ensures t.OfCustom? <==> e.Custom?
  {
    match t
    case OfKind(k) => Typed(k, v)
    case OfCustom(l) => Custom(l, v)
  }

  /** Serializing a lifted value is serializing the value itself: the union adds
      nothing to the document. */
  lemma LiftSerializes<V>(c: Codec<V>, t: Liftable, v: V)
    ensures Serialize(c, Lift(t, v)) == Encode(c, t, v)
  {
  }

  /** The per-kind codec round-trips on `v`: its serialization carries a "type"
      that parses back to `k`, and the kind decoder reads `v` back from it. */
  ghost predicate KindRoundTrips<V>(c: Codec<V>, k: Kind, v: V) {
    var doc := c.encodeKind(k, v);
    && Has(doc, "type")
    && c.parseType(Get(doc, "type").value) == Success(Known(k))
    && c.decodeKind(k, doc) == Success(v)
  }
}

=== FILE: event_type.dfy ===
/** The event-kind registry: the 22 kinds of the specification, the open
    `Custom` tag, and the taxonomy level each known kind belongs to. */
module EventTypes {

  /** The known event kinds; each is named after its tag (`CallAnswer` is
      `m.call.answer`). */
  datatype Kind =
    | CallAnswer | CallCandidates | CallHangup | CallInvite
    | Presence | Receipt
    | RoomAliases | RoomAvatar | RoomCanonicalAlias | RoomCreate
    | RoomGuestAccess | RoomHistoryVisibility | RoomJoinRules | RoomMember
    | RoomMessage | RoomName | RoomPowerLevels | RoomRedaction
    | RoomThirdPartyInvite | RoomTopic
    | Tag | Typing

  /** `EventType`: one of the known kinds, or `EventType::Custom` holding any
      other tag verbatim. */
  datatype EventType = Known(kind: Kind) | Unknown(name: string)

  /** The three taxonomy levels; also the three granularities of the Invalid and
      Custom fallbacks (`Invalid`/`InvalidRoom`/`InvalidState`, and likewise for
      Custom). */
  datatype Level = Basic | Room | State

  /** The tag string of each known kind, as documented on the enum variants. */
  function TagName(k: Kind): string {
    match k
    case CallAnswer => "m.call.answer"
    case CallCandidates => "m.call.candidates"
    case CallHangup => "m.call.hangup"
    case CallInvite => "m.call.invite"
    case Presence => "m.presence"
    case Receipt => "m.receipt"
    case RoomAliases => "m.room.aliases"
    case RoomAvatar => "m.room.avatar"
    case RoomCanonicalAlias => "m.room.canonical_alias"
    case RoomCreate => "m.room.create"
    case RoomGuestAccess => "m.room.guest_access"
    case RoomHistoryVisibility => "m.room.history_visibility"
    case RoomJoinRules => "m.room.join_rules"
    case RoomMember => "m.room.member"
    case RoomMessage => "m.room.message"
    case RoomName => "m.room.name"
    case RoomPowerLevels => "m.room.power_levels"
    case RoomRedaction => "m.room.redaction"
    case RoomThirdPartyInvite => "m.room.third_party_invite"
    case RoomTopic => "m.room.topic"
    case Tag => "m.tag"
    case Typing => "m.typing"
  }

  /** The level of a known kind: the level of the Invalid fallback its failed
      decode lands in, and the narrowest collection that holds it. */
  function LevelOf(k: Kind): Level {
    match k
    case Presence | Receipt | Tag | Typing => Basic
    case CallAnswer | CallCandidates | CallHangup | CallInvite
      | RoomMessage | RoomRedaction => Room
    case RoomAliases | RoomAvatar | RoomCanonicalAlias | RoomCreate
      | RoomGuestAccess | RoomHistoryVisibility | RoomJoinRules | RoomMember
      | RoomName | RoomPowerLevels | RoomThirdPartyInvite | RoomTopic => State
  }

  predicate IsPrefix(p: string, s: string) {
    |p| <= |s| && s[..|p|] == p
  }

  /** A string that disagrees with `p` at some position of `p` does not start with `p`. */
  lemma DiffersAt(p: string, s: string, i: nat)
    requires i < |p| && i < |s| && p[i] != s[i]
    ensures !IsPrefix(p, s)
  {
  }

  /** Distinct kinds carry distinct tags. */
  lemma TagNameInjective(k1: Kind, k2: Kind)
    ensures TagName(k1) == TagName(k2) ==> k1 == k2
  {
  }

  /** The level table read off the tag namespace: `m.call.*`, `m.room.message`
      and `m.room.redaction` are room events, every other `m.room.*` is a state
      event, and everything outside those two namespaces is a basic event. */
  lemma LevelByTagName(k: Kind)
    ensures LevelOf(k) == Room <==>
      IsPrefix("m.call.", TagName(k)) || TagName(k) == "m.room.message" || TagName(k) == "m.room.redaction"
    ensures LevelOf(k) == State <==>
      IsPrefix("m.room.", TagName(k)) && TagName(k) != "m.room.message" && TagName(k) != "m.room.redaction"
    ensures LevelOf(k) == Basic <==>
      !IsPrefix("m.call.", TagName(k)) && !IsPrefix("m.room.", TagName(k))
  {
    var name := TagName(k);
    if name[2] != 'c' { DiffersAt("m.call.", name, 2); }
    if name[2] != 'r' { DiffersAt("m.room.", name, 2); }
    if name[3] != 'o' { DiffersAt("m.room.", name, 3); }
    // One case per kind, so that each tag is a literal the prefix test can read.
    match k
    case CallAnswer =>
    case CallCandidates =>
    case CallHangup =>
    case CallInvite =>
    case Presence =>
    case Receipt =>
    case RoomAliases =>
    case RoomAvatar =>
    case RoomCanonicalAlias =>
    case RoomCreate =>
    case RoomGuestAccess =>
    case RoomHistoryVisibility =>
    case RoomJoinRules =>
    case RoomMember =>
    case RoomMessage =>
    case RoomName =>
    case RoomPowerLevels =>
    case RoomRedaction =>
    case RoomThirdPartyInvite =>
    case RoomTopic =>
    case Tag =>
    case Typing =>
  }

  /** The kinds of each level, listed. */
  lemma KindsOfLevel(k: Kind)
    ensures LevelOf(k) == Basic <==> k in {Presence, Receipt, Tag, Typing}
    ensures LevelOf(k) == Room <==>
      k in {CallAnswer, CallCandidates, CallHangup, CallInvite, RoomMessage, RoomRedaction}
  {
  }
}

=== FILE: fields.dfy ===
/** How a derived serde struct reads and writes its fields in the map form: a
    required field must be present, an `Option` field may be absent or null,
    and an `Option` field marked `skip_serializing_if = "Option::is_none"` is
    left out of the output when it is `None`. */
module Fields {
  import opened Wrappers
  import opened Json

  function MissingFieldMessage(key: string): string {
    "missing field `" + key + "`"
  }

  function InvalidType(key: string): string {
    "invalid type for field `" + key + "`"
  }

  /** A required `String` field. */
  function RequiredString(fields: map<string, Json>, key: string): (r: Result<string, string>)
    ensures r.Success? <==> key in fields && fields[key].JString?
    ensures r.Success? ==> r.value == fields[key].s
  {
    if key !in fields then Failure(MissingFieldMessage(key))
    else match fields[key]
      case JString(s) => Success(s)
      case _ => Failure(InvalidType(key))
  }

  /** An `Option<String>` field: absent and null both read as `None`. */
  function OptionalString(fields: map<string, Json>, key: string): (r: Result<Option<string>, string>)
    ensures r == Success(None) <==> key !in fields || fields[key] == JNull
    ensures r.Failure? <==> key in fields && !fields[key].JNull? && !fields[key].JString?
    ensures key in fields && fields[key].JString? ==> r == Success(Some(fields[key].s))
  {
    if key !in fields then Success(None)
    else match fields[key]
      case JNull => Success(None)
      case JString(s) => Success(Some(s))
      case _ => Failure(InvalidType(key))
  }

  /** An `Option<bool>` field. */
  function OptionalBool(fields: map<string, Json>, key: string): (r: Result<Option<bool>, string>)
    ensures r == Success(None) <==> key !in fields || fields[key] == JNull
    ensures r.Failure? <==> key in fields && !fields[key].JNull? && !fields[key].JBool?
    ensures key in fields && fields[key].JBool? ==> r == Success(Some(fields[key].b))
  {
    if key !in fields then Success(None)
    else match fields[key]
      case JNull => Success(None)
      case JBool(b) => Success(Some(b))
      case _ => Failure(InvalidType(key))
  }

  /** Writes `key` only when there is a value. */
  function PutOptional(fields: map<string, Json>, key: string, value: Option<Json>): (r: map<string, Json>)
    ensures key in r <==> value.Some?
    ensures value.Some? ==> r[key] == value.value
    ensures forall other :: other != key ==> (other in r <==> other in fields)
    ensures forall other :: other != key && other in fields ==> r[other] == fields[other]
  {
    match value
    case Some(v) => fields[key := v]
    case None => fields - {key}
  }

  function StringValue(s: Option<string>): Option<Json> {
    match s
    case Some(x) => Some(JString(x))
    case None => None
  }

  function BoolValue(b: Option<bool>): Option<Json> {
    match b
    case Some(x) => Some(JBool(x))
    case None => None
  }
}

=== FILE: json.dfy ===
/** A structurally parsed JSON document (serde_json's `Value`). Only the presence
    of keys and the shape of leaf values matter to the model. */
module Json {
  import opened Wrappers

  datatype Json =
    | JNull
    | JBool(b: bool)
    | JNumber(n: int)
    | JString(s: string)
    | JArray(items: seq<Json>)
    | JObject(fields: map<string, Json>)

  /** `Value::get(key)`: the member under `key` of an object; `None` for a missing
      key and for every value that is not an object. */
  function Get(doc: Json, key: string): (r: Option<Json>)
    ensures r.Some? <==> doc.JObject? && key in doc.fields
    ensures r.Some? ==> r.value == doc.fields[key]
  {
    if doc.JObject? && key in doc.fields then Some(doc.fields[key]) else None
  }

  /** `value.get(key).is_some()`. */
  predicate Has(doc: Json, key: string) {
    Get(doc, key).Some?
  }
}

=== FILE: member.dfy ===
/** The `m.room.member` payload: the membership state codec, the required and
    optional fields of the content, of a third-party invite and of its signed
    block, and the optional `invite_room_state` list beside the content. */
module Member {
  import opened Wrappers
  import opened Json
  import opened Fields
  import opened EventTypes
  import opened Events
  import All

  datatype MembershipState = Ban | Invite | Join | Knock | Leave

  const MembershipNames: set<string> := {"ban", "invite", "join", "knock", "leave"}

  /** The string a membership state is written as. */
  function EncodeMembership(m: MembershipState): (s: string)
    ensures s in MembershipNames
  {
    match m
    case Ban => "ban"
    case Invite => "invite"
    case Join => "join"
    case Knock => "knock"
    case Leave => "leave"
  }

  /** Reads a membership state: exactly the five names decode, and each decodes
      to the state written as that name. */
  function DecodeMembership(s: string): (r: Option<MembershipState>)
    ensures r.Some? <==> s in MembershipNames
    ensures r.Some? ==> EncodeMembership(r.value) == s
  {
    match s
    case "ban" => Some(Ban)
    case "invite" => Some(Invite)
    case "join" => Some(Join)
    case "knock" => Some(Knock)
    case "leave" => Some(Leave)
    case _ => None
  }

  /** decode(encode(m)) = m. */
  lemma MembershipRoundTrip(m: MembershipState)
    ensures DecodeMembership(EncodeMembership(m)) == Some(m)
  {
  }

  /** Distinct states are written differently. */
  lemma MembershipEncodingInjective(m1: MembershipState, m2: MembershipState)
    ensures EncodeMembership(m1) == EncodeMembership(m2) ==> m1 == m2
  {
  }

  // ---------------------------------------------------------------------------
  // The content and its nested records.

  /** The signed block of a third-party invite. The user id and the signatures
      come from external crates and are kept opaque: the id as its string, the
      signatures as their JSON value. */
  datatype SignedContent = SignedContent(mxid: string, signatures: Json, token: string)

  datatype ThirdPartyInvite = ThirdPartyInvite(displayName: string, signed: SignedContent)

  /** `MemberEventContent`: only `membership` is required. */
  datatype MemberEventContent = MemberEventContent(
    avatarUrl: Option<string>,
    displayname: Option<string>,
    isDirect: Option<bool>,
    membership: MembershipState,
    thirdPartyInvite: Option<ThirdPartyInvite>)

  function EncodeSigned(s: SignedContent): (r: Json)
    ensures r.JObject? && r.fields.Keys == {"mxid", "signatures", "token"}
  {
    JObject(map["mxid" := JString(s.mxid), "signatures" := s.signatures, "token" := JString(s.token)])
  }

  /** `SignedContent` requires all three of `mxid`, `signatures` and `token`. */
  function DecodeSigned(doc: Json): (r: Result<SignedContent, string>)
    ensures r.Success? <==>
      && doc.JObject?
      && "mxid" in doc.fields && doc.fields["mxid"].JString?
      && "signatures" in doc.fields
      && "token" in doc.fields && doc.fields["token"].JString?
    ensures r.Success? ==>
      && doc.fields["mxid"] == JString(r.value.mxid)
      && doc.fields["signatures"] == r.value.signatures
      && doc.fields["token"] == JString(r.value.token)
  {
    if !doc.JObject? then Failure("invalid type: expected struct SignedContent")
    else
      match RequiredString(doc.fields, "mxid")
      case Failure(e) => Failure(e)
      case Success(mxid) =>
        if "signatures" !in doc.fields then Failure(MissingFieldMessage("signatures"))
        else
          match RequiredString(doc.fields, "token")
          case Failure(e) => Failure(e)
          case Success(token) => Success(SignedContent(mxid, doc.fields["signatures"], token))
  }

  function EncodeThirdPartyInvite(t: ThirdPartyInvite): (r: Json)
    ensures r.JObject? && r.fields.Keys == {"display_name", "signed"}
  {
    JObject(map["display_name" := JString(t.displayName), "signed" := EncodeSigned(t.signed)])
  }

  /** `ThirdPartyInvite` requires `display_name` and `signed`. */
  function DecodeThirdPartyInvite(doc: Json): (r: Result<ThirdPartyInvite, string>)
    ensures r.Success? <==>
      && doc.JObject?
      && "display_name" in doc.fields && doc.fields["display_name"].JString?
      && "signed" in doc.fields && DecodeSigned(doc.fields["signed"]).Success?
    ensures r.Success? ==> doc.fields["display_name"] == JString(r.value.displayName)
    ensures r.Success? ==> DecodeSigned(doc.fields["signed"]) == Success(r.value.signed)
  {
    if !doc.JObject? then Failure("invalid type: expected struct ThirdPartyInvite")
    else
      match RequiredString(doc.fields, "display_name")
      case Failure(e) => Failure(e)
      case Success(name) =>
        if "signed" !in doc.fields then Failure(MissingFieldMessage("signed"))
        else
          match DecodeSigned(doc.fields["signed"])
          case Failure(e) => Failure(e)
          case Success(signed) => Success(ThirdPartyInvite(name, signed))
  }

  function InviteValue(t: Option<ThirdPartyInvite>): Option<Json> {
    match t
    case Some(x) => Some(EncodeThirdPartyInvite(x))
    case None => None
  }

  /** Serializes the content: `membership` always, each optional field only
      when it is set. */
  function EncodeContent(x: MemberEventContent): (r: Json)
    ensures r.JObject?
    ensures "membership" in r.fields && r.fields["membership"] == JString(EncodeMembership(x.membership))
    ensures "avatar_url" in r.fields <==> x.avatarUrl.Some?
    ensures "displayname" in r.fields <==> x.displayname.Some?
    ensures "is_direct" in r.fields <==> x.isDirect.Some?
    ensures "third_party_invite" in r.fields <==> x.thirdPartyInvite.Some?
    ensures r.fields.Keys <= {"avatar_url", "displayname", "is_direct", "membership", "third_party_invite"}
  {
    var m0 := map["membership" := JString(EncodeMembership(x.membership))];
    var m1 := PutOptional(m0, "avatar_url", StringValue(x.avatarUrl));
    var m2 := PutOptional(m1, "displayname", StringValue(x.displayname));
    var m3 := PutOptional(m2, "is_direct", BoolValue(x.isDirect));
    JObject(PutOptional(m3, "third_party_invite", InviteValue(x.thirdPartyInvite)))
  }

  /** The required `membership` field: a known state name. */
  function ReadMembership(fields: map<string, Json>): (r: Result<MembershipState, string>)
    ensures r.Success? <==> "membership" in fields && fields["membership"].JString? &&
                            fields["membership"].s in MembershipNames
    ensures r.Success? ==> DecodeMembership(fields["membership"].s) == Some(r.value)
  {
    if "membership" !in fields then Failure(MissingFieldMessage("membership"))
    else match fields["membership"]
      case JString(s) => (
        match DecodeMembership(s)
        case Some(m) => Success(m)
        case None => Failure("unknown variant `" + s + "`"))
      case _ => Failure(InvalidType("membership"))
  }

  /** The optional `third_party_invite` field. */
  function ReadThirdPartyInvite(fields: map<string, Json>): (r: Result<Option<ThirdPartyInvite>, string>)
    ensures r == Success(None) <==> "third_party_invite" !in fields || fields["third_party_invite"] == JNull
    ensures r.Success? && r.value.Some? ==>
      DecodeThirdPartyInvite(fields["third_party_invite"]) == Success(r.value.value)
    ensures r.Failure? <==>
      "third_party_invite" in fields && fields["third_party_invite"] != JNull &&
      DecodeThirdPartyInvite(fields["third_party_invite"]).Failure?
  {
    if "third_party_invite" !in fields || fields["third_party_invite"] == JNull then Success(None)
    else match DecodeThirdPartyInvite(fields["third_party_invite"])
      case Success(t) => Success(Some(t))
      case Failure(e) => Failure(e)
  }

  /** Deserializes the content; fails exactly when `membership` is missing or
      unreadable or an optional field is present with a bad value. */
  function DecodeContent(doc: Json): (r: Result<MemberEventContent, string>)
    ensures r.Success? <==>
      && doc.JObject?
      && OptionalString(doc.fields, "avatar_url").Success?
      && OptionalString(doc.fields, "displayname").Success?
      && OptionalBool(doc.fields, "is_direct").Success?
      && ReadMembership(doc.fields).Success?
      && ReadThirdPartyInvite(doc.fields).Success?
    ensures r.Success? ==>
      && OptionalString(doc.fields, "avatar_url") == Success(r.value.avatarUrl)
      && OptionalString(doc.fields, "displayname") == Success(r.value.displayname)
      && OptionalBool(doc.fields, "is_direct") == Success(r.value.isDirect)
      && ReadMembership(doc.fields) == Success(r.value.membership)
      && ReadThirdPartyInvite(doc.fields) == Success(r.value.thirdPartyInvite)
  {
    if !doc.JObject? then Failure("invalid type: expected struct MemberEventContent")
    else
      var f := doc.fields;
      match (OptionalString(f, "avatar_url"), OptionalString(f, "displayname"),
             OptionalBool(f, "is_direct"), ReadMembership(f), ReadThirdPartyInvite(f))
      case (Success(a), Success(d), Success(i), Success(m), Success(t)) =>
        Success(MemberEventContent(a, d, i, m, t))
      case (Failure(e), _, _, _, _) => Failure(e)
      case (_, Failure(e), _, _, _) => Failure(e)
      case (_, _, Failure(e), _, _) => Failure(e)
      case (_, _, _, Failure(e), _) => Failure(e)
      case (_, _, _, _, Failure(e)) => Failure(e)
  }

  lemma SignedRoundTrip(s: SignedContent)
    ensures DecodeSigned(EncodeSigned(s)) == Success(s)
  {
  }

  lemma ThirdPartyInviteRoundTrip(t: ThirdPartyInvite)
    ensures DecodeThirdPartyInvite(EncodeThirdPartyInvite(t)) == Success(t)
  {
  }

  /** decode(encode(x)) = x for the whole content. */
  lemma ContentRoundTrip(x: MemberEventContent)
    ensures DecodeContent(EncodeContent(x)) == Success(x)
  {
    var f := EncodeContent(x).fields;
    MembershipRoundTrip(x.membership);
    if x.thirdPartyInvite.Some? {
      ThirdPartyInviteRoundTrip(x.thirdPartyInvite.value);
    }
    assert ReadMembership(f) == Success(x.membership);
    assert ReadThirdPartyInvite(f) == Success(x.thirdPartyInvite);
  }

  /** `membership` is the one required field: a content without it never
      decodes, and one holding only a valid `membership` does, with every
      optional field `None`. */
  lemma MembershipIsRequired(fields: map<string, Json>, s: string)
    ensures "membership" !in fields ==> DecodeContent(JObject(fields)).Failure?
    ensures DecodeMembership(s).Some? ==>
      DecodeContent(JObject(map["membership" := JString(s)])) ==
      Success(MemberEventContent(None, None, None, DecodeMembership(s).value, None))
  {
  }

  /** Missing required fields of the nested records. */
  lemma NestedRequiredFields(fields: map<string, Json>)
    ensures "display_name" !in fields || "signed" !in fields ==>
      DecodeThirdPartyInvite(JObject(fields)).Failure?
    ensures "mxid" !in fields || "signatures" !in fields || "token" !in fields ==>
      DecodeSigned(JObject(fields)).Failure?
  {
  }

  // ---------------------------------------------------------------------------
  // `invite_room_state`, beside the content.

  /** Writes the optional `invite_room_state` list (its `StrippedState`
      elements kept as opaque JSON values) into the event object, leaving it
      out when absent. */
  function PutInviteRoomState(fields: map<string, Json>, state: Option<seq<Json>>): (r: map<string, Json>)
    ensures "invite_room_state" in r <==> state.Some?
    ensures forall key :: key != "invite_room_state" ==> (key in r <==> key in fields)
    ensures forall key :: key != "invite_room_state" && key in fields ==> r[key] == fields[key]
    ensures state.Some? ==> r["invite_room_state"] == JArray(state.value)
  {
    PutOptional(fields, "invite_room_state", if state.Some? then Some(JArray(state.value)) else None)
  }

  /** Reads the optional `invite_room_state`: absent or null is `None`, a list is
      its elements, anything else is an error. */
  function ReadInviteRoomState(fields: map<string, Json>): (r: Result<Option<seq<Json>>, string>)
    ensures r == Success(None) <==> "invite_room_state" !in fields || fields["invite_room_state"] == JNull
    ensures "invite_room_state" in fields && fields["invite_room_state"].JArray? ==>
      r == Success(Some(fields["invite_room_state"].items))
    ensures r.Failure? <==>
      ("invite_room_state" in fields && !fields["invite_room_state"].JNull? && !fields["invite_room_state"].JArray?)
  {
    if "invite_room_state" !in fields then Success(None)
    else match fields["invite_room_state"]
      case JNull => Success(None)
      case JArray(items) => Success(Some(items))
      case _ => Failure(InvalidType("invite_room_state"))
  }

  lemma InviteRoomStateRoundTrip(fields: map<string, Json>, state: Option<seq<Json>>)
    ensures ReadInviteRoomState(PutInviteRoomState(fields, state)) == Success(state)
  {
  }

  // ---------------------------------------------------------------------------
  // Membership events in the collections.

  /** A member event whose `content` lacks `membership` fails its kind decode,
      so every inclusive collection files it as `InvalidState` with the kind
      decoder's error attached (given the Invalid fallback reads the document).
      The content sits under the event's "content" key, beside
      `invite_room_state`; the hypothesis ties the member decoder to it. */
  lemma MemberWithoutMembershipIsInvalidState<V>(c: Codec<V>, doc: Json)
    requires ReadType(c, doc) == Success(Known(RoomMember))
    requires doc.JObject? && "content" in doc.fields && doc.fields["content"].JObject?
    requires c.decodeKind(RoomMember, doc).Success? ==> DecodeContent(doc.fields["content"]).Success?
    requires "membership" !in doc.fields["content"].fields
    requires c.decodeInvalid(State, doc).Success?
    ensures c.decodeKind(RoomMember, doc).Failure?
    ensures All.DecodeEvent(c, doc) ==
      Success(Invalid(State, c.withError(c.decodeInvalid(State, doc).value, c.decodeKind(RoomMember, doc).error)))
    ensures All.DecodeEvent(c, doc) == All.DecodeRoomEvent(c, doc) == All.DecodeStateEvent(c, doc)
  {
  }
}

=== FILE: only.dfy ===
/** The exclusive collections: `Event` holds only the basic kinds and `RoomEvent`
    only the room kinds that are not state kinds. The state collection is the
    inclusive `StateEvent`, re-exported; together the three split the known
    tags. */
module Only {
  import opened Wrappers
  import opened Json
  import opened EventTypes
  import opened Events
  import All

  /** `Deserialize for only::Event`: an unknown tag is always a basic `Custom`,
      with no structural routing. */
  function DecodeEvent<V>(c: Codec<V>, doc: Json): (r: Result<Variant<V>, Error>)
    ensures r == Classify(OnlyEvent, c, doc)
  {
    match ReadType(c, doc)
    case Failure(e) => Failure(e)
    case Success(Known(k)) => (
      match k
      case Presence | Receipt | Tag | Typing => DecodeKnown(c, k, Basic, doc)
      case CallAnswer | CallCandidates | CallHangup | CallInvite | RoomAliases | RoomAvatar
        | RoomCanonicalAlias | RoomCreate | RoomGuestAccess | RoomHistoryVisibility
        | RoomJoinRules | RoomMember | RoomMessage | RoomName | RoomPowerLevels
        | RoomRedaction | RoomThirdPartyInvite | RoomTopic =>
        Failure(NotApplicable("not exclusively a basic event"))
    )
    case Success(Unknown(_)) => DecodeCustom(c, Basic, doc)
  }

  /** `Deserialize for only::RoomEvent`: an unknown tag is always a `CustomRoom`. */
  function DecodeRoomEvent<V>(c: Codec<V>, doc: Json): (r: Result<Variant<V>, Error>)
    ensures r == Classify(OnlyRoomEvent, c, doc)
  {
    match ReadType(c, doc)
    case Failure(e) => Failure(e)
    case Success(Known(k)) => (
      match k
      case CallAnswer | CallCandidates | CallHangup | CallInvite | RoomMessage | RoomRedaction =>
        DecodeKnown(c, k, Room, doc)
      case Presence | Receipt | RoomAliases | RoomAvatar | RoomCanonicalAlias | RoomCreate
        | RoomGuestAccess | RoomHistoryVisibility | RoomJoinRules | RoomMember | RoomName
        | RoomPowerLevels | RoomThirdPartyInvite | RoomTopic | Tag | Typing =>
        Failure(NotApplicable("not exclusively a room event"))
    )
    case Success(Unknown(_)) => DecodeCustom(c, Room, doc)
  }

  /** `only::StateEvent`, the re-export of the inclusive one. */
  function DecodeStateEvent<V>(c: Codec<V>, doc: Json): (r: Result<Variant<V>, Error>)
    ensures r == Classify(AllStateEvent, c, doc)
  {
    All.DecodeStateEvent(c, doc)
  }

  predicate Rejected<V>(r: Result<Variant<V>, Error>) {
    r.Failure? && r.error.NotApplicable?
  }

  /** Both exclusive decoders fail with `missing_field("type")` without a tag,
      and pass a tag-parse error on. */
  lemma TagErrors<V>(c: Codec<V>, doc: Json)
    ensures !Has(doc, "type") ==>
      DecodeEvent(c, doc) == Failure(MissingField("type")) &&
      DecodeRoomEvent(c, doc) == Failure(MissingField("type"))
    ensures Has(doc, "type") && c.parseType(Get(doc, "type").value).Failure? ==>
      var msg := c.parseType(Get(doc, "type").value).error;
      DecodeEvent(c, doc) == Failure(Decode(msg)) && DecodeRoomEvent(c, doc) == Failure(Decode(msg))
  {
  }

  /** `only::Event` accepts exactly presence, receipt, tag and typing: each
      decodes to its own variant or falls back to `Invalid` with the error;
      every other known tag is rejected with "not exclusively a basic event". */
  lemma EventAcceptsBasicKinds<V>(c: Codec<V>, doc: Json, k: Kind)
    requires ReadType(c, doc) == Success(Known(k))
    ensures k in {Presence, Receipt, Tag, Typing} ==> DecodeEvent(c, doc) == DecodeKnown(c, k, Basic, doc)
    ensures k !in {Presence, Receipt, Tag, Typing} ==>
      DecodeEvent(c, doc) == Failure(NotApplicable("not exclusively a basic event"))
  {
  }

  /** `only::RoomEvent` accepts exactly the four call kinds, `m.room.message` and
      `m.room.redaction`, falling back to `InvalidRoom`; every other known tag is
      rejected with "not exclusively a room event". */
  lemma RoomEventAcceptsRoomKinds<V>(c: Codec<V>, doc: Json, k: Kind)
    requires ReadType(c, doc) == Success(Known(k))
    ensures k in {CallAnswer, CallCandidates, CallHangup, CallInvite, RoomMessage, RoomRedaction} ==>
      DecodeRoomEvent(c, doc) == DecodeKnown(c, k, Room, doc)
    ensures k !in {CallAnswer, CallCandidates, CallHangup, CallInvite, RoomMessage, RoomRedaction} ==>
      DecodeRoomEvent(c, doc) == Failure(NotApplicable("not exclusively a room event"))
  {
  }

  /** Unknown tags: `only::Event` always decodes a `Custom`, `only::RoomEvent`
      always a `CustomRoom`, whatever keys the document carries. */
  lemma UnknownTags<V>(c: Codec<V>, doc: Json, name: string)
    requires ReadType(c, doc) == Success(Unknown(name))
    ensures DecodeEvent(c, doc) == DecodeCustom(c, Basic, doc)
    ensures DecodeRoomEvent(c, doc) == DecodeCustom(c, Room, doc)
  {
  }

  /** The partition: every known tag is accepted by exactly one of `only::Event`,
      `only::RoomEvent` and `StateEvent`, and rejected by the other two. */
  lemma Partition<V>(c: Codec<V>, doc: Json, k: Kind)
    requires ReadType(c, doc) == Success(Known(k))
    ensures (if Rejected(DecodeEvent(c, doc)) then 0 else 1)
          + (if Rejected(DecodeRoomEvent(c, doc)) then 0 else 1)
          + (if Rejected(DecodeStateEvent(c, doc)) then 0 else 1) == 1
    ensures !Rejected(DecodeEvent(c, doc)) <==> LevelOf(k) == Basic
    ensures !Rejected(DecodeRoomEvent(c, doc)) <==> LevelOf(k) == Room
    ensures !Rejected(DecodeStateEvent(c, doc)) <==> LevelOf(k) == State
  {
  }

  /** An exclusive decoder agrees with the inclusive `Event` decoder on every
      known tag it accepts. */
  lemma ExclusiveAgreesWithInclusive<V>(c: Codec<V>, doc: Json, k: Kind)
    requires ReadType(c, doc) == Success(Known(k))
    ensures !Rejected(DecodeEvent(c, doc)) ==> DecodeEvent(c, doc) == All.DecodeEvent(c, doc)
    ensures !Rejected(DecodeRoomEvent(c, doc)) ==>
      DecodeRoomEvent(c, doc) == All.DecodeEvent(c, doc) == All.DecodeRoomEvent(c, doc)
  {
  }

  // ---------------------------------------------------------------------------
  // Lifting.

  /** The types with a `From` lift into `only::Event`. */
  const EventFrom: set<Liftable> := {
    OfKind(Presence), OfKind(Receipt), OfKind(Tag), OfKind(Typing), OfCustom(Basic)}

  /** The types with a `From` lift into `only::RoomEvent`. */
  const RoomEventFrom: set<Liftable> := {
    OfKind(CallAnswer), OfKind(CallCandidates), OfKind(CallHangup), OfKind(CallInvite),
    OfKind(RoomMessage), OfKind(RoomRedaction), OfCustom(Room)}

  function FromTable(u: Collection): set<Liftable>
    requires u in {OnlyEvent, OnlyRoomEvent}
  {
    if u == OnlyEvent then EventFrom else RoomEventFrom
  }

  /** `From<T> for only::Event` / `only::RoomEvent`: the lifted value belongs to
      the collection and serializes as the value itself. */
  function From<V>(u: Collection, c: Codec<V>, t: Liftable, v: V): (e: Variant<V>)
    requires u in {OnlyEvent, OnlyRoomEvent} && t in FromTable(u)
    ensures Holds(u, e) && e.event == v
    ensures Serialize(c, e) == Encode(c, t, v)
  {
    Lift(t, v)
  }

  /** A type lifts into an exclusive collection exactly when its decoder holds
      the type's level. */
  lemma FromTableByLevel(u: Collection, t: Liftable)
    requires u in {OnlyEvent, OnlyRoomEvent}
    ensures t in FromTable(u) <==> LiftableLevel(t) in Levels(u)
  {
  }

  /** The exclusive lift tables sit inside the inclusive ones, are disjoint from
      each other and from `StateEvent`'s, and with it cover every kind exactly
      once; the exclusive room types are the inclusive room types that are not
      state types. */
  lemma FromTablesPartition(k: Kind)
    ensures EventFrom <= All.EventFrom && RoomEventFrom <= All.RoomEventFrom
    ensures EventFrom !! RoomEventFrom && EventFrom !! All.StateEventFrom
    ensures RoomEventFrom !! All.StateEventFrom
    ensures OfKind(k) in EventFrom || OfKind(k) in RoomEventFrom || OfKind(k) in All.StateEventFrom
    ensures RoomEventFrom == All.RoomEventFrom - All.StateEventFrom
  {
  }

  /** The round trip through an exclusive collection. */
  lemma LiftRoundTrip<V>(u: Collection, c: Codec<V>, k: Kind, v: V)
    requires u in {OnlyEvent, OnlyRoomEvent} && OfKind(k) in FromTable(u)
    requires KindRoundTrips(c, k, v)
    ensures (if u == OnlyEvent then DecodeEvent(c, Serialize(c, From(u, c, OfKind(k), v)))
             else DecodeRoomEvent(c, Serialize(c, From(u, c, OfKind(k), v)))) == Success(Typed(k, v))
  {
  }
}

=== FILE: wrappers.dfy ===
/** Option and Result, the two failure-carrying shapes the model uses in place of
    Rust's `Option<T>` and `Result<T, E>`. */
module Wrappers {

  datatype Option<+T> = None | Some(value: T)

  datatype Result<+T, +E> = Success(value: T) | Failure(error: E)
}
